=== FILE: README.md ===
# Grid pursuit game: a verified model of the game rules

`mp2.py` implements a small turn-based pursuit game on an n-by-n board
(`GenGameBoard`). The Player starts on the exit, must fetch the gold and come
back to the exit within `2n + 1` moves. On each turn it either steps into an
empty neighbouring cell or builds an obstacle (`'#'`) on one. The Monster
steps into an empty neighbouring cell or stays where it is. It wins when it
reaches the Player's cell or when the Player's move budget runs out.

This Dafny project models that program as a pure transition system and proves
properties of it:

- `Grid`: cells, directions and the coordinate test the action generator
  applies before looking at a neighbouring cell.
- `GameState`: the agents, the actions (`Move`, `Build`, the Monster's
  `Stay`), the game state and the starting layout (`__init__`). The obstacle
  grid `marks` is the set of cells holding `'#'`.
- `Rules`: action generation (`get_actions`) and the transition (`make_move`),
  plus the gold pick-up the game loop performs after each Player move.
- `Scoring`: `game_won`, `no_more_moves`, `is_terminal` and `get_utility`.
- `Tokens`: the strings the game shows and reads for the actions (`'w'`,
  `'wb'`, …, `''` for the stay), and the input check of the game loop.
- `Driver`: one round of the game loop (Player move, gold check, Player
  checks, Monster move, Monster check), runs of rounds, and termination.
- `Scenario`: a concrete two-round game, played through the modelled game
  loop, that ends with the Monster standing on an obstacle.
- `Minimax`: a reconstruction, not a line-by-line translation, of the search that
  `max_value` / `min_value` sketch. It is a plain minimax over the game tree
  of the rules above, with `get_utility` at the leaves. It includes the
  Monster's action choice in the style of `max_value` (strict improvement
  keeps the first of equally good actions, and the scan stops once the value
  is 1).
- `AlphaBeta`: the same search with the alpha-beta cut-offs the sketch aims
  at. It is proved to return the minimax value.

Inputs the program reads are parameters of the model:

- The Player's typed move is the index of its choice among the legal actions.
- The Monster's random draw (`random.randrange`) is an index into its action
  list.

Both indices are taken modulo the length of the list.

Behaviour of the code worth knowing:

- The Player may build on the cell the Monster occupies, because `marks`
  records only obstacles and not where the agents stand. So the Monster CAN
  stand on an obstacle (`Scenario.MonsterOnObstacle`). Only the Player is
  kept off obstacles (`GameState.Valid`).
- Either agent may step onto the other's cell. Only the Monster's win check after its own move (mp2.py:318-321) ends the game, so a Player that steps onto the Monster is caught only if the Monster then stays.
- The starting positions are fixed at `(3, 0)`, `(0, 0)` and `(1, 2)`
  whatever the board size. So the starting state is well formed exactly when
  `n >= 4` (`GameState.Init`).

## Model

| member | source | states |
|---|---|---|
| GameState.Init | mp2.py:32-46 | Builds the starting layout. No obstacles, no gold, no moves used, a budget of `2n + 1`. The Player starts on the exit and on neither the gold nor the Monster. The layout is well formed (everything on the board, the Player off obstacles) exactly when `n >= 4`. |
| Grid.HasRoom | mp2.py:146-170 | For a cell on the board, the coordinate test of `get_actions` (`row > 0`, `row < n - 1`, …) holds exactly when the neighbouring cell in that direction is on the board. |
| Rules.DirActions | mp2.py:145-170 | One direction contributes exactly its move (and, for the Player, the build right after it) when the neighbouring cell is on the board and empty, and nothing else. Its keys lie in that direction's band and are ordered. |
| Rules.Actions | mp2.py:141-173 | The generated list is ordered Up, Down, Left, Right, with a move before the build in the same direction, so no action appears twice. The Monster's list is never empty and ends with the stay. The Player is never offered the stay. |
| Rules.ActionsAllowed | mp2.py:141-173 | For an agent on the board, an action is listed exactly when it is allowed by the independent definition `Allowed`: a move to an empty on-board neighbour, a build there by the Player, or the Monster's stay. |
| Rules.ActionsSound | mp2.py:145-171 | Every listed move or build passes the coordinate test and targets a cell without an obstacle. Only the Player gets builds and only the Monster gets the stay, on or off the board. |
| Rules.Apply | mp2.py:97-124 | Every Player action uses exactly one move of the budget and leaves the Monster in place. A Monster action changes nothing but the Monster's position. The board size, gold, exit, gold flag and budget never change. |
| Rules.Step | mp2.py:91-124 | For a legal action, a Player move shifts the Player one step into a cell without an obstacle and leaves the obstacles unchanged. A build adds exactly the adjacent empty cell as an obstacle and moves nobody. A Monster move shifts only the Monster, into a cell without an obstacle, and a stay changes nothing. Obstacles never disappear. A well-formed state stays well formed. |
| Rules.MonsterMoveKeepsPlayerActions | mp2.py:116-124 | A Monster action never changes the Player's action list, since it neither moves the Player nor touches the obstacles. |
| Rules.PickUpGold | mp2.py:291-293 | After the check the gold is held exactly when it was already held or the Player stands on the gold. Nothing else changes. |
| Rules.PlayerPly | mp2.py:289-293 | A Player ply (the move, then the gold check) leaves the gold held exactly when it was held before or the Player now stands on the gold. It keeps a well-formed state well formed. |
| Scoring.WinConditions | mp2.py:126-139 | How the win tests arise in play. After a Player ply the Player has won exactly when it ends on the exit holding the gold, either held before or lying on the exit. The ply that spends the last move of the budget gives the Monster its win. A Monster action never changes whether the Player has won. A Monster stepping onto the Player's cell wins. |
| Scoring.NoMoreMoves | mp2.py:175-179 | Never holds for the Monster, because the stay is always listed. |
| Scoring.IsTerminal | mp2.py:253-260 | For the Monster, terminal exactly when its win condition holds, because it can always stay. The Player's case is `Scoring.BoxedIn`. |
| Scoring.BoxedIn | mp2.py:141-179 | A Player on the board has no move exactly when each of the four neighbouring cells is off the board or blocked. So it is in a terminal position exactly when it has won or is boxed in like that. |
| Scoring.Utility | mp2.py:245-251 | The value is -1, 0 or 1. It is -1 exactly when the Player has won. It is 1 exactly when the Player has not won and the Monster's win condition holds. It is 0 exactly when neither holds. A Player win takes priority. |
| Tokens.Parse | mp2.py:23-30 | Any string that reads as an action is that action's name. |
| Tokens.ParseCode | mp2.py:141-173 | Every action's name reads back as that action. |
| Tokens.CodeInjective | mp2.py:23-30 | Distinct actions have distinct names. |
| Tokens.AcceptedIffLegal | mp2.py:284-289 | A typed string passes the loop's `move not in possible_moves` check exactly when it names a legal Player action. |
| Driver.MonsterPick | mp2.py:183-187 | The draw-th entry of the Monster's list is always a legal Monster action. |
| Driver.MonsterPickOnto | mp2.py:185-187 | Every legal Monster action is the pick of some draw. |
| Driver.PlayerPick | mp2.py:284-289 | When the Player has a move, the chosen entry is a legal Player action. |
| Driver.PlayerPickOnto | mp2.py:284-289 | Every legal Player action is the pick of some choice, and a Player with a legal action has a move. |
| Driver.Round | mp2.py:283-321 | The Player wins exactly when, after its ply, it stands on the exit with the gold. It loses exactly when it has not won and either has no move left or the Monster's condition holds after the Monster's move. Otherwise the game goes on from a state reached by a legal Monster action. The round ends in the state its ply left or in one step of a legal Monster action from there, whether it goes on, is won or is lost. A round uses exactly one move of the budget, and the board size, gold and exit never change. The Player's position and the obstacles are those its ply left. Gold is held exactly when it was held or the Player now stands on it. A well-formed state stays well formed, and a round that does not end leaves the Player with a move and budget left. |
| Driver.Run | mp2.py:279-321 | A sequence of rounds keeps the state well formed. While the game goes on, each round uses one move of the budget. Gold once held stays held, and the obstacle set only grows. The board size, gold and exit stay those of the start. Given at least one turn, the run uses at least one move of the budget and at most one per turn. Given none, it changes nothing. |
| Driver.RunEnds | mp2.py:318-321 | The game is over after at most `maxMoves - numMoves` rounds, whatever the choices and draws. |
| Driver.GameFromInitEnds | mp2.py:44 | From the starting layout on a board of size at least 4, every game is over within `2n + 1` rounds. |
| Scenario.MonsterOnObstacle | mp2.py:107-114 | On the 4-by-4 board, the Player moving up and then building up, with the Monster first moving down and then staying, leads to an ongoing game with the Monster on an obstacle. |
| Scenario.BoxedInLoopAndSearch | mp2.py:245-251 | A Player ply that boxes the Player in, away from a win, with budget left and the Monster elsewhere, ends the round as a Player loss in the loop. The search values the same position 0. |
| Minimax.Ply | mp2.py:289-293 | A search ply (with the gold check after a Player move) stays inside the budget and strictly lowers the number of plies left, so the search terminates without a depth limit. |
| Minimax.PlyIsGamePly | mp2.py:91-124 | For a legal action the search's ply is the game's own Player ply or Monster step. |
| Minimax.GameTreeScored | mp2.py:204-206 | Every leaf of the game tree is a utility in -1..1, and every inner node has at least one child. |
| Minimax.FoldIsBest | mp2.py:214-216 | The left-to-right scan returns the best of the start value and the children's values: the maximum for the Monster, the minimum for the Player. |
| Minimax.TreeValueRange | mp2.py:245-251 | The minimax value of a scored tree is -1, 0 or 1. |
| Minimax.Value | mp2.py:225-227 | The value of a node lies in -1..1, and at a node where the search stops it is `get_utility` unchanged. |
| Minimax.ValueIsBest | mp2.py:204-243 | Where the search goes on, some legal action attains the value. No legal action beats it: the Monster's value is the maximum and the Player's the minimum over the legal actions. |
| Minimax.ChooseMonsterAction | mp2.py:204-223 | Returns a legal action whose value is the Monster's minimax value, at least that of every legal action. Every action listed before it is strictly worse, so it is the first best action. |
| Minimax.ImmediateCatch | mp2.py:136 | When the Monster can step onto the Player (or already shares its cell) and the Player has not won, the Monster's value is 1. |
| AlphaBeta.Search | mp2.py:204-243 | The pruned scan, with the Monster stopping at 1 or beta and the Player at -1 or alpha, returns -1, 0 or 1 on a scored tree whatever the window. So it never returns one of the infinities, whatever the window. |
| AlphaBeta.SearchAgrees | mp2.py:217-221 | Alpha-beta search over a scored tree agrees with minimax for the window (alpha, beta). Inside the window it returns the minimax value; outside it returns a bound on the same side. |
| AlphaBeta.SearchIsMinimax | mp2.py:196-202 | With the full window the pruned search of the game tree returns exactly the minimax value. |

## Left out

- `print_board` and the header, move and result prints (mp2.py:48-89, 267-268, 283, 324-328): console output only.
- Human input and the re-prompt loop (mp2.py:284-289): the typed move is an index into the legal actions. `Tokens.AcceptedIffLegal` shows the re-prompt accepts exactly the legal names.
- The randomness of the Monster's move (mp2.py:185-187): the draw is an input, and every legal Monster action can be drawn (`Driver.MonsterPickOnto`).
- Rules.Step: the `assert` at the head of `make_move` (mp2.py:95) becomes a precondition. The model has no `AssertionError`; every call in the game loop and the search passes a listed action.
- Driver.Round: models only the random Monster move of `make_comp_move` (mp2.py:185-187). The rest of that function (mp2.py:190-194) cannot complete as written: `alpha_beta_search` calls `max_value`, which calls `is_terminal()` without its required argument.
- A literal translation into Dafny of `alpha_beta_search`, `minimax_search`, `max_value` and `min_value` (mp2.py:196-243): as written they call `get_actions()` and `is_terminal()` without the required argument. They write annotations instead of assignments at 211/213 and 232/234, and return after the first child. `Minimax` and `AlphaBeta` are reconstructions of what they set out to compute, with these choices:
  - The terminal test applies to the agent that has just moved.
  - An agent with no action is scored by `get_utility`.
  - ±infinity become -2 and 2, which lose against every utility.
  - The search and the game loop disagree on a Player that boxes itself in. The loop declares a loss (mp2.py:304-307). The search scores that position by `get_utility` (mp2.py:245-251), which gives 0 unless a win condition holds (`Scenario.BoxedInLoopAndSearch`).
- The class counters `num_pruned`, `depth`, `MAX_DEPTH` and `depth_reached` (mp2.py:19-21, 46): never updated or read.
- numpy storage of `marks` (mp2.py:37-38): the model keeps the set of obstacle cells instead.
- Rules.Actions: boards smaller than 4 are not modelled as errors. There the fixed start positions lie off the board, and `get_actions(True)` raises IndexError (mp2.py:146-157). `Rules.Actions` still returns a list. It is claimed to match the program only for agents on the board (`Rules.ActionsAllowed`), and every game property assumes a well-formed state (`n >= 4`).
- Python's negative indexing of `marks` is never reached: every index the program uses passes the coordinate test first (`Rules.ActionsSound`).

=== FILE: alphabeta.dfy ===
/** Minimax with alpha-beta pruning, reconstructing the cut-offs that
    mp2.py's `max_value` / `min_value` sketch (stop once the best possible
    value is reached, stop once the value leaves the alpha-beta window), with
    alpha and beta threaded through the recursion. Pruning never changes the
    value at the root.

    The search walks the game tree of `Minimax`; only the children it does
    not prune are ever looked at.
 */
module AlphaBeta {
  import opened GameState
  import opened Minimax

  /** The window bounds: alpha only rises and beta only falls, whichever
      agent is to move, so these are kept apart from `Better`. */
  function Max(x: int, y: int): int { if x < y then y else x }
  function Min(x: int, y: int): int { if x < y then x else y }

  /** The pruned search value of a tree for the window (alpha, beta). On a
      scored tree it is a utility whatever the window: a cut-off returns a
      value some child reached, never one of the infinities. */
  function Search(t: Tree, alpha: int, beta: int): (r: int)
    ensures Scored(t) ==> -1 <= r <= 1
    decreases t
  {
    match t
    case Leaf(u) => u
    case Node(who, kids) => Scan(who, kids, alpha, beta, Start(who))
  }

  /** The loop over the remaining children with best value `v` so far. The
      Monster stops when it reaches 1 or beta, the Player when it reaches -1
      or alpha; otherwise the window narrows and the scan goes on. */
  function Scan(who: Agent, kids: seq<Tree>, alpha: int, beta: int, v: int): (r: int)
    ensures
      && (forall i :: 0 <= i < |kids| ==> Scored(kids[i]))
      && (-1 <= v <= 1 || (|kids| > 0 && v == Start(who)))
      ==> -1 <= r <= 1
    decreases kids
  {
    if |kids| == 0 then
      v
    else
      var v' := Better(who, v, Search(kids[0], alpha, beta));
      if who == Monster then
        if v' == 1 || v' >= beta then v'
        else Scan(who, kids[1..], Max(alpha, v'), beta, v')
      else
        if v' == -1 || v' <= alpha then v'
        else Scan(who, kids[1..], alpha, Min(beta, v'), v')
  }

  /** `r` is what a search with window (alpha, beta) may return for a node of
      true value `t`: a bound on the same side of the window when `t` lies
      outside it, and `t` itself when it lies inside. */
  predicate Agrees(r: int, t: int, alpha: int, beta: int)
  {
    && (t <= alpha ==> r <= alpha)
    && (t >= beta ==> r >= beta)
    && (alpha < t < beta ==> r == t)
  }

  /** Starting the minimax scan from a better value only combines that value
      with the result. */
  lemma {:induction false} FoldFrom(who: Agent, kids: seq<Tree>, x: int, y: int)
    requires who == Monster ==> y <= x
    requires who == Player ==> x <= y
    ensures Fold(who, kids, x) == Better(who, x, Fold(who, kids, y))
    decreases kids
  {
    if |kids| > 0 {
      var c := TreeValue(kids[0]);
      FoldFrom(who, kids[1..], Better(who, x, c), Better(who, y, c));
    }
  }

  /** The scan of children whose values are utilities, started from the
      worst value, is at most 1 for the Monster and at least -1 for the
      Player. */
  lemma FoldBound(who: Agent, kids: seq<Tree>)
    requires forall i :: 0 <= i < |kids| ==> Scored(kids[i])
    ensures who == Monster ==> Fold(who, kids, NegInf) <= 1
    ensures who == Player ==> Fold(who, kids, PosInf) >= -1
  {
    FoldIsBest(who, kids, Start(who));
    var r := Fold(who, kids, Start(who));
    if r != Start(who) {
      var i :| 0 <= i < |kids| && TreeValue(kids[i]) == r;
      TreeValueRange(kids[i]);
    }
  }

  /** Pruning is sound: within the window the pruned value is the minimax
      value, and outside it the pruned value is on the correct side. */
  lemma {:induction false} SearchAgrees(t: Tree, alpha: int, beta: int)
    requires Scored(t)
    requires NegInf <= alpha < beta <= PosInf
    ensures Agrees(Search(t, alpha, beta), TreeValue(t), alpha, beta)
    decreases t, 0
  {
    if t.Node? {
      ScanAgrees(t.who, t.kids, alpha, beta, Start(t.who));
    }
  }

  lemma {:induction false} ScanAgrees(who: Agent, kids: seq<Tree>, alpha: int, beta: int, v: int)
    requires forall i :: 0 <= i < |kids| ==> Scored(kids[i])
    requires NegInf <= alpha < beta <= PosInf
    requires who == Monster ==> NegInf <= v <= alpha
    requires who == Player ==> beta <= v <= PosInf
    ensures Agrees(Scan(who, kids, alpha, beta, v), Fold(who, kids, v), alpha, beta)
    ensures who == Monster ==> Scan(who, kids, alpha, beta, v) >= v
    ensures who == Player ==> Scan(who, kids, alpha, beta, v) <= v
    decreases kids, 1
  {
    if |kids| > 0 {
      if who == Monster {
        MaxScanAgrees(kids, alpha, beta, v);
      } else {
        MinScanAgrees(kids, alpha, beta, v);
      }
    }
  }

  /** One step of the Monster's scan: the first child, then the rest. */
  lemma {:induction false} MaxScanAgrees(kids: seq<Tree>, alpha: int, beta: int, v: int)
    requires |kids| > 0 && forall i :: 0 <= i < |kids| ==> Scored(kids[i])
    requires NegInf <= v <= alpha < beta <= PosInf
    ensures Agrees(Scan(Monster, kids, alpha, beta, v), Fold(Monster, kids, v), alpha, beta)
    ensures Scan(Monster, kids, alpha, beta, v) >= v
    decreases kids, 0
  {
    var rest := kids[1..];
    var c := Search(kids[0], alpha, beta);
    var vc := TreeValue(kids[0]);
    SearchAgrees(kids[0], alpha, beta);
    TreeValueRange(kids[0]);
    FoldBound(Monster, rest);
    var f0 := Fold(Monster, rest, NegInf);
    var v' := Max(v, c);
    assert Better(Monster, v, c) == v';
    assert Better(Monster, v, vc) == Max(v, vc);
    FoldFrom(Monster, rest, Max(v, vc), NegInf);
    assert Fold(Monster, kids, v) == Max(Max(v, vc), f0);
    if v' == 1 || v' >= beta {
      MaxPrune(alpha, beta, v, c, vc, f0);
    } else {
      FoldFrom(Monster, rest, v', NegInf);
      ScanAgrees(Monster, rest, Max(alpha, v'), beta, v');
      MaxContinue(alpha, beta, v, c, vc, f0, Scan(Monster, rest, Max(alpha, v'), beta, v'));
    }
  }

  /** One step of the Player's scan: the first child, then the rest. */
  lemma {:induction false} MinScanAgrees(kids: seq<Tree>, alpha: int, beta: int, v: int)
    requires |kids| > 0 && forall i :: 0 <= i < |kids| ==> Scored(kids[i])
    requires NegInf <= alpha < beta <= v <= PosInf
    ensures Agrees(Scan(Player, kids, alpha, beta, v), Fold(Player, kids, v), alpha, beta)
    ensures Scan(Player, kids, alpha, beta, v) <= v
    decreases kids, 0
  {
    var rest := kids[1..];
    var c := Search(kids[0], alpha, beta);
    var vc := TreeValue(kids[0]);
    SearchAgrees(kids[0], alpha, beta);
    TreeValueRange(kids[0]);
    FoldBound(Player, rest);
    var f0 := Fold(Player, rest, PosInf);
    var v' := Min(v, c);
    assert Better(Player, v, c) == v';
    assert Better(Player, v, vc) == Min(v, vc);
    FoldFrom(Player, rest, Min(v, vc), PosInf);
    assert Fold(Player, kids, v) == Min(Min(v, vc), f0);
    if v' == -1 || v' <= alpha {
      MinPrune(alpha, beta, v, c, vc, f0);
    } else {
      FoldFrom(Player, rest, v', PosInf);
      ScanAgrees(Player, rest, alpha, Min(beta, v'), v');
      MinContinue(alpha, beta, v, c, vc, f0, Scan(Player, rest, alpha, Min(beta, v'), v'));
    }
  }

  /* The window arithmetic behind one step of the scan. `c` is the pruned
     value of the first child and `vc` its minimax value, `v` the best value
     so far and `f0` the minimax value of the remaining children. */

  lemma MaxPrune(alpha: int, beta: int, v: int, c: int, vc: int, f0: int)
    requires NegInf <= v <= alpha < beta <= PosInf
    requires -1 <= vc <= 1 && f0 <= 1 && Agrees(c, vc, alpha, beta)
    requires Max(v, c) == 1 || Max(v, c) >= beta
    ensures Agrees(Max(v, c), Max(Max(v, vc), f0), alpha, beta)
  {
  }

  lemma MaxContinue(alpha: int, beta: int, v: int, c: int, vc: int, f0: int, r: int)
    requires NegInf <= v <= alpha < beta <= PosInf
    requires -1 <= vc <= 1 && f0 <= 1 && Agrees(c, vc, alpha, beta)
    requires Max(v, c) < beta
    requires r >= Max(v, c) && Agrees(r, Max(Max(v, c), f0), Max(alpha, Max(v, c)), beta)
    ensures Agrees(r, Max(Max(v, vc), f0), alpha, beta)
  {
  }

  lemma MinPrune(alpha: int, beta: int, v: int, c: int, vc: int, f0: int)
    requires NegInf <= alpha < beta <= v <= PosInf
    requires -1 <= vc <= 1 && f0 >= -1 && Agrees(c, vc, alpha, beta)
    requires Min(v, c) == -1 || Min(v, c) <= alpha
    ensures Agrees(Min(v, c), Min(Min(v, vc), f0), alpha, beta)
  {
  }

  lemma MinContinue(alpha: int, beta: int, v: int, c: int, vc: int, f0: int, r: int)
    requires NegInf <= alpha < beta <= v <= PosInf
    requires -1 <= vc <= 1 && f0 >= -1 && Agrees(c, vc, alpha, beta)
    requires Min(v, c) > alpha
    requires r <= Min(v, c) && Agrees(r, Min(Min(v, c), f0), alpha, Min(beta, Min(v, c)))
    ensures Agrees(r, Min(Min(v, vc), f0), alpha, beta)
  {
  }

  /** With the full window the pruned search of the game tree returns exactly
      the minimax value. */
  lemma SearchIsMinimax(s: State, who: Agent)
    requires SearchState(s)
    ensures Search(GameTree(s, who), NegInf, PosInf) == Value(s, who)
  {
    GameTreeScored(s, who);
    SearchAgrees(GameTree(s, who), NegInf, PosInf);
  }
}

=== FILE: driver.dfy ===
/** The game loop: rounds of one Player ply followed by one Monster move,
    with the end-of-game checks between them.

    The Player's typed move and the Monster's random draw are inputs: a
    `Turn` holds the index of the Player's choice among its legal actions and
    the Monster's draw, both reduced modulo the length of the list they pick
    from, so every pick is a legal choice and every legal choice is some pick
    (`MonsterPickOnto`, `PlayerPickOnto`).
 */
module Driver {
  import opened Grid
  import opened GameState
  import opened Rules
  import opened Scoring

  datatype Turn = Turn(choice: nat, draw: nat)

  /** Where a round (or a sequence of rounds) leaves the game. */
  datatype Outcome = Ongoing(state: State) | PlayerWon(state: State) | PlayerLost(state: State)

  /** A state at which a round can start: well formed, budget not exhausted,
      and the Player has something to choose. */
  ghost predicate Playing(s: State)
  {
    Valid(s) && s.numMoves < s.maxMoves && !NoMoreMoves(s, Player)
  }

  /** The Monster's pick: the draw-th entry (cyclically) of its action list,
      which is never empty. */
  function MonsterPick(s: State, draw: nat): (a: Action)
    ensures a in Actions(s, Monster)
  {
    var acts := Actions(s, Monster);
    acts[draw % |acts|]
  }

  /** A position of `x` in `xs`, which is also its own cyclic index. */
  function IndexOf(xs: seq<Action>, x: Action): (i: nat)
    requires x in xs
    ensures i < |xs| && xs[i] == x && i % |xs| == i
  {
    var i := if xs[0] == x then 0 else 1 + IndexOf(xs[1..], x);
    SmallMod(i, |xs|);
    i
  }

  lemma SmallMod(i: nat, k: nat)
    requires i < k
    ensures i % k == i
  {
  }

  /** Every legal Monster action is the pick of some draw. */
  lemma MonsterPickOnto(s: State, m: Action)
    requires m in Actions(s, Monster)
    ensures exists draw: nat :: MonsterPick(s, draw) == m
  {
    var i := IndexOf(Actions(s, Monster), m);
    assert MonsterPick(s, i) == m;
  }

  /** One round of the loop. The Player plays `a`, the gold check runs, the
      Player wins if on the exit with the gold, and loses if left with no
      move; otherwise the Monster plays its pick and wins if it has caught the
      Player or the budget is used up. */
  function Round(s: State, a: Action, draw: nat): (o: Outcome)
    requires a in Actions(s, Player)
    ensures o.PlayerWon? <==> GameWon(PlayerPly(s, a), Player)
    ensures o.PlayerLost? <==>
      !GameWon(PlayerPly(s, a), Player)
      && (NoMoreMoves(PlayerPly(s, a), Player) || GameWon(o.state, Monster))
    ensures !o.Ongoing? ==> o.state == PlayerPly(s, a) || GameWon(o.state, Monster)
    ensures o.state == PlayerPly(s, a) ||
      exists m :: m in Actions(PlayerPly(s, a), Monster) && o.state == Step(PlayerPly(s, a), Monster, m)
    ensures o.state.n == s.n && o.state.gold == s.gold && o.state.exit == s.exit
    ensures o.state.numMoves == s.numMoves + 1
    ensures o.state.player == PlayerPly(s, a).player
    ensures o.state.obstacles == PlayerPly(s, a).obstacles
    ensures o.state.hasGold <==> s.hasGold || o.state.player == s.gold
    ensures o.Ongoing? ==>
      exists m :: m in Actions(PlayerPly(s, a), Monster) && o.state == Step(PlayerPly(s, a), Monster, m)
    ensures Valid(s) ==> Valid(o.state)
    ensures Valid(s) && s.numMoves < s.maxMoves && o.Ongoing? ==> Playing(o.state)
  {
    var s1 := PlayerPly(s, a);
    if GameWon(s1, Player) then
      PlayerWon(s1)
    else if NoMoreMoves(s1, Player) then
      PlayerLost(s1)
    else
      var m := MonsterPick(s1, draw);
      var s2 := Step(s1, Monster, m);
      MonsterMoveKeepsPlayerActions(s1, m);
      assert NoMoreMoves(s2, Player) == NoMoreMoves(s1, Player);
      assert m in Actions(s1, Monster) && s2 == Step(s1, Monster, m);
      if GameWon(s2, Monster) then PlayerLost(s2) else Ongoing(s2)
  }

  /** The Player's `choice`-th legal action (cyclically). */
  function PlayerPick(s: State, choice: nat): (a: Action)
    requires !NoMoreMoves(s, Player)
    ensures a in Actions(s, Player)
  {
    var acts := Actions(s, Player);
    acts[choice % |acts|]
  }

  /** Every legal Player action is the pick of some choice. */
  lemma PlayerPickOnto(s: State, a: Action)
    requires a in Actions(s, Player)
    ensures !NoMoreMoves(s, Player)
    ensures exists choice: nat :: PlayerPick(s, choice) == a
  {
    var i := IndexOf(Actions(s, Player), a);
    assert PlayerPick(s, i) == a;
  }

  /** Plays the given turns from `s` until the game ends or the turns run out
      (then the outcome is `Ongoing`). */
  function Run(s: State, turns: seq<Turn>): (o: Outcome)
    requires Playing(s)
    ensures Valid(o.state)
    ensures o.Ongoing? ==> Playing(o.state) && o.state.numMoves == s.numMoves + |turns|
    ensures s.hasGold ==> o.state.hasGold
    ensures s.obstacles <= o.state.obstacles
    ensures o.state.n == s.n && o.state.gold == s.gold && o.state.exit == s.exit
    ensures s.numMoves < o.state.numMoves <= s.numMoves + |turns| || (|turns| == 0 && o.state == s)
    decreases |turns|
  {
    if |turns| == 0 then
      Ongoing(s)
    else
      match Round(s, PlayerPick(s, turns[0].choice), turns[0].draw)
      case Ongoing(t) => Run(t, turns[1..])
      case o => o
  }

  /** The game always ends: every round uses one move of the budget, and the
      Monster's check ends the game once the budget is used up, so at most
      `maxMoves - numMoves` rounds can be played. */
  lemma {:induction false} RunEnds(s: State, turns: seq<Turn>)
    requires Playing(s)
    requires s.numMoves + |turns| >= s.maxMoves
    ensures !Run(s, turns).Ongoing?
    decreases |turns|
  {
    var o := Round(s, PlayerPick(s, turns[0].choice), turns[0].draw);
    if o.Ongoing? {
      RunEnds(o.state, turns[1..]);
    }
  }

  /** From the starting layout on a board of size at least 4, any game is
      over after at most `2 * n + 1` rounds. */
  lemma GameFromInitEnds(n: nat, turns: seq<Turn>)
    requires n >= 4 && |turns| >= 2 * n + 1
    ensures !Run(Init(n), turns).Ongoing?
  {
    var s := Init(n);
    ActionsAllowed(s, Player);
    assert Move(Up) in Actions(s, Player);
    RunEnds(s, turns);
  }
}

=== FILE: gamestate.dfy ===
/** The state of one game of the grid pursuit game: a Player who must fetch
    the gold and bring it to the exit, and a Monster that tries to reach the
    Player's cell before the Player's move budget runs out.
 */
module GameState {
  import opened Grid

  /** Whose turn it is (mp2.py passes this as the boolean `player_move`). */
  datatype Agent = Player | Monster

  function Other(who: Agent): (o: Agent)
    ensures o != who
  {
    if who == Player then Monster else Player
  }

  /** A move steps into the adjacent cell; a build (Player only) puts an
      obstacle on the adjacent cell without moving; `Stay` is the Monster's
      pass. */
  datatype Action = Move(dir: Dir) | Build(dir: Dir) | Stay

  /** `obstacles` holds every cell marked '#'; all other cells of the
      n-by-n grid are empty. Agents are not recorded in the grid. */
  datatype State = State(
    n: nat,
    obstacles: set<Pos>,
    player: Pos,
    monster: Pos,
    gold: Pos,
    exit: Pos,
    hasGold: bool,
    numMoves: nat,
    maxMoves: nat)

  /** Where the given agent stands. */
  function At(s: State, who: Agent): Pos
  {
    if who == Player then s.player else s.monster
  }

  /** The starting layout. The positions are fixed and only fit a board of
      size at least 4; the move budget is twice the size plus one. */
  function Init(n: nat): (s: State)
    ensures s.n == n && s.obstacles == {} && !s.hasGold && s.numMoves == 0
    ensures s.maxMoves == 2 * n + 1
    ensures s.player == s.exit && s.player != s.gold && s.monster != s.player
    ensures Valid(s) <==> n >= 4
  {
    State(n, {}, Pos(3, 0), Pos(0, 0), Pos(1, 2), Pos(3, 0), false, 0, 2 * n + 1)
  }

  /** Well-formedness of a state: every position and every obstacle is on the
      board, the Player never stands on an obstacle, and the budget is the
      one fixed at construction. The Monster is NOT required to be off the
      obstacles: the Player may build on the Monster's cell. */
  ghost predicate Valid(s: State)
  {
    && InBounds(s.n, s.player)
    && InBounds(s.n, s.monster)
    && InBounds(s.n, s.gold)
    && InBounds(s.n, s.exit)
    && (forall q :: q in s.obstacles ==> InBounds(s.n, q))
    && s.player !in s.obstacles
    && s.maxMoves == 2 * s.n + 1
  }

  /** The cell in direction `d` from `p` is on the board and holds no obstacle
      (a declarative statement of what the action generator tests). */
  predicate Open(s: State, p: Pos, d: Dir)
  {
    InBounds(s.n, Neighbour(p, d)) && Neighbour(p, d) !in s.obstacles
  }
}

=== FILE: grid.dfy ===
/** Cells of the square board and the four unit steps between them.

    A cell is a (row, column) pair, 0-indexed from the top-left corner. Row 0
    is the top row, so "up" decreases the row and "left" decreases the column.
 */
module Grid {

  datatype Pos = Pos(row: int, col: int)

  /** The four directions, in the order in which actions are generated. */
  datatype Dir = Up | Down | Left | Right

  /** Position of a direction in the fixed generation order Up, Down, Left, Right. */
  function Rank(d: Dir): nat
  {
    match d
    case Up => 0
    case Down => 1
    case Left => 2
    case Right => 3
  }

  /** The cell one step from `p` in direction `d`. */
  function Neighbour(p: Pos, d: Dir): Pos
  {
    match d
    case Up => Pos(p.row - 1, p.col)
    case Down => Pos(p.row + 1, p.col)
    case Left => Pos(p.row, p.col - 1)
    case Right => Pos(p.row, p.col + 1)
  }

  predicate InBounds(n: int, p: Pos)
  {
    0 <= p.row < n && 0 <= p.col < n
  }

  /** The coordinate test the game applies before looking at the cell in
      direction `d`: the row (or column) must not already be on the edge the
      step would leave through. For a cell on the board it says exactly that
      the neighbour is on the board too. */
  predicate HasRoom(n: int, p: Pos, d: Dir)
    ensures InBounds(n, p) ==> (HasRoom(n, p, d) <==> InBounds(n, Neighbour(p, d)))
  {
    match d
    case Up => p.row > 0
    case Down => p.row < n - 1
    case Left => p.col > 0
    case Right => p.col < n - 1
  }
}

=== FILE: minimax.dfy ===
/** A plain minimax search over the game rules, reconstructing what
    mp2.py's unfinished `max_value` / `min_value` pair sets out to compute.

    The Monster maximises and the Player minimises the value returned by
    `Utility`. A node records who is to move; its terminal test is the one
    the game loop applies to the agent who has just moved (the Player's test
    before a Monster move, the Monster's test before a Player move). A Player
    ply includes the gold check, as in the game loop. No depth limit is
    needed: every Player ply uses one move of the budget, and a node with
    the budget used up is terminal.
 */
module Minimax {
  import opened Grid
  import opened GameState
  import opened Rules
  import opened Scoring

  /** Stand-ins for mp2.py's -math.inf and math.inf: every value lies in
      [-1, 1], so these lose against any real value. */
  const NegInf: int := -2
  const PosInf: int := 2

  /** A node the search may visit: the budget is not overdrawn. */
  predicate SearchState(s: State)
  {
    s.numMoves <= s.maxMoves
  }

  /** Termination measure: each ply lowers it by one. */
  function PliesLeft(s: State, who: Agent): nat
    requires s.numMoves <= s.maxMoves
  {
    2 * (s.maxMoves - s.numMoves) + (if who == Monster then 1 else 0)
  }

  /** A node at which the search stops and scores with `Utility`: the agent
      who has just moved has won or left the Player without a move, or the
      agent to move has no action. */
  predicate Stop(s: State, who: Agent)
  {
    IsTerminal(s, Other(who)) || NoMoreMoves(s, who)
  }

  /** One ply of `who`, as the game loop performs it (a Player ply includes
      the gold check). */
  function Ply(s: State, who: Agent, a: Action): (r: State)
    requires SearchState(s) && !Stop(s, who)
    ensures SearchState(r) && PliesLeft(r, Other(who)) < PliesLeft(s, who)
  {
    if who == Player then
      PickUpGold(Apply(s, Player, a))
    else
      Apply(s, Monster, a)
  }

  /** For a legal action the search's ply is the game's. */
  lemma PlyIsGamePly(s: State, who: Agent, a: Action)
    requires SearchState(s) && !Stop(s, who) && a in Actions(s, who)
    ensures who == Player ==> Ply(s, who, a) == PlayerPly(s, a)
    ensures who == Monster ==> Ply(s, who, a) == Step(s, Monster, a)
  {
  }

  /** The preferred of two values for `who`. */
  function Better(who: Agent, x: int, y: int): (z: int)
    ensures z == x || z == y
    ensures who == Monster ==> z >= x && z >= y
    ensures who == Player ==> z <= x && z <= y
  {
    if who == Monster then (if y > x then y else x)
    else (if y < x then y else x)
  }

  /** The least preferred starting value for `who`. */
  function Start(who: Agent): int
  {
    if who == Monster then NegInf else PosInf
  }

  /** The game tree below a node: a leaf scored with `Utility` where the
      search stops, otherwise a node of the agent to move whose children are
      the trees after each of its actions, in the order `Actions` lists them. */
  datatype Tree = Leaf(score: int) | Node(who: Agent, kids: seq<Tree>)

  function GameTree(s: State, who: Agent): (t: Tree)
    requires SearchState(s)
    decreases PliesLeft(s, who)
  {
    if Stop(s, who) then
      Leaf(Utility(s))
    else
      var acts := Actions(s, who);
      Node(who, seq(|acts|, i requires 0 <= i < |acts| => GameTree(Ply(s, who, acts[i]), Other(who))))
  }

  /** Every leaf score is a utility and every inner node has a child. */
  predicate Scored(t: Tree)
    decreases t
  {
    match t
    case Leaf(u) => -1 <= u <= 1
    case Node(_, kids) => |kids| > 0 && forall i :: 0 <= i < |kids| ==> Scored(kids[i])
  }

  /** Game trees are scored: the search stops with a utility, and goes on
      only where the agent to move has an action. */
  lemma {:induction false} GameTreeScored(s: State, who: Agent)
    requires SearchState(s)
    ensures Scored(GameTree(s, who))
    decreases PliesLeft(s, who)
  {
    if !Stop(s, who) {
      var acts := Actions(s, who);
      var kids := GameTree(s, who).kids;
      assert |kids| == |acts| > 0;
      forall i | 0 <= i < |kids|
        ensures Scored(kids[i])
      {
        GameTreeScored(Ply(s, who, acts[i]), Other(who));
      }
    }
  }

  /** The minimax value of a tree: the Monster maximises, the Player
      minimises. */
  function TreeValue(t: Tree): int
    decreases t
  {
    match t
    case Leaf(u) => u
    case Node(who, kids) => Fold(who, kids, Start(who))
  }

  /** Scans the children left to right, keeping the best value so far, as the
      search loop does. */
  function Fold(who: Agent, kids: seq<Tree>, v: int): int
    decreases kids
  {
    if |kids| == 0 then v else Fold(who, kids[1..], Better(who, v, TreeValue(kids[0])))
  }

  /** The scan returns the best of `v` and the children's values. */
  lemma {:induction false} FoldIsBest(who: Agent, kids: seq<Tree>, v: int)
    ensures var r := Fold(who, kids, v);
      && (r == v || exists i :: 0 <= i < |kids| && TreeValue(kids[i]) == r)
      && (who == Monster ==> r >= v && forall i :: 0 <= i < |kids| ==> TreeValue(kids[i]) <= r)
      && (who == Player ==> r <= v && forall i :: 0 <= i < |kids| ==> TreeValue(kids[i]) >= r)
    decreases kids
  {
    if |kids| > 0 {
      var c := TreeValue(kids[0]);
      var rest := kids[1..];
      FoldIsBest(who, rest, Better(who, v, c));
      var r := Fold(who, kids, v);
      assert r != v && r != c ==> exists i :: 0 <= i < |rest| && TreeValue(rest[i]) == r;
      forall i | 1 <= i < |kids|
        ensures TreeValue(kids[i]) == TreeValue(rest[i - 1])
      {
      }
    }
  }

  /** The value of a scored tree is a utility. */
  lemma {:induction false} TreeValueRange(t: Tree)
    requires Scored(t)
    ensures -1 <= TreeValue(t) <= 1
    decreases t
  {
    if t.Node? {
      var kids := t.kids;
      FoldIsBest(t.who, kids, Start(t.who));
      TreeValueRange(kids[0]);
      var r := TreeValue(t);
      var i :| 0 <= i < |kids| && TreeValue(kids[i]) == r;
      TreeValueRange(kids[i]);
    }
  }

  /** The minimax value of a node: `Utility` at a stopping node; otherwise the
      best child value for the agent to move (see `ValueIsBest`). */
  function Value(s: State, who: Agent): (r: int)
    requires SearchState(s)
    ensures -1 <= r <= 1
    ensures Stop(s, who) ==> r == Utility(s)
  {
    GameTreeScored(s, who);
    TreeValueRange(GameTree(s, who));
    TreeValue(GameTree(s, who))
  }

  /** The value of playing `a`. */
  function Child(s: State, who: Agent, a: Action): (r: int)
    requires SearchState(s) && !Stop(s, who)
    ensures -1 <= r <= 1
  {
    Value(Ply(s, who, a), Other(who))
  }

  /** At a node where the search goes on, some legal action attains the
      value, and no legal action is better for the agent to move: the
      Monster's value is the maximum and the Player's the minimum of the
      values of its actions. */
  lemma ValueIsBest(s: State, who: Agent)
    requires SearchState(s) && !Stop(s, who)
    ensures exists a :: a in Actions(s, who) && Child(s, who, a) == Value(s, who)
    ensures who == Monster ==> forall a :: a in Actions(s, who) ==> Child(s, who, a) <= Value(s, who)
    ensures who == Player ==> forall a :: a in Actions(s, who) ==> Child(s, who, a) >= Value(s, who)
  {
    var acts := Actions(s, who);
    var kids := GameTree(s, who).kids;
    var r := Value(s, who);
    assert r == Fold(who, kids, Start(who));
    forall i | 0 <= i < |acts|
      ensures TreeValue(kids[i]) == Child(s, who, acts[i])
    {
    }
    FoldIsBest(who, kids, Start(who));
    assert r != Start(who) by {
      assert TreeValue(kids[0]) == Child(s, who, acts[0]);
    }
    var i :| 0 <= i < |kids| && TreeValue(kids[i]) == r;
    assert acts[i] in acts;
    forall a | a in acts
      ensures who == Monster ==> Child(s, who, a) <= r
      ensures who == Player ==> Child(s, who, a) >= r
    {
      var j :| 0 <= j < |acts| && acts[j] == a;
    }
  }

  /** The Monster's choice, following mp2.py's `max_value` loop: scan
      the actions in order, keep an action whose value strictly beats the best
      so far (so the first of equally good actions wins), and stop early once
      the best possible value 1 is reached. The chosen action attains the
      minimax value and every action listed before it is strictly worse. */
  method ChooseMonsterAction(s: State) returns (best: Action, v: int)
    requires SearchState(s) && !Stop(s, Monster)
    ensures best in Actions(s, Monster)
    ensures v == Value(s, Monster) && Child(s, Monster, best) == v
    ensures forall a :: a in Actions(s, Monster) ==> Child(s, Monster, a) <= v
    ensures exists k :: 0 <= k < |Actions(s, Monster)| && Actions(s, Monster)[k] == best &&
                        forall j :: 0 <= j < k ==> Child(s, Monster, Actions(s, Monster)[j]) < v
  {
    var acts := Actions(s, Monster);
    v := NegInf;
    best := acts[0];
    var k := 0;
    var i := 0;
    while i < |acts| && v != 1
      invariant 0 <= i <= |acts| && 0 <= k < |acts|
      invariant forall j :: 0 <= j < i ==> Child(s, Monster, acts[j]) <= v
      invariant i == 0 ==> v == NegInf
      invariant i > 0 ==> k < i && acts[k] == best && Child(s, Monster, best) == v
      invariant i > 0 ==> forall j :: 0 <= j < k ==> Child(s, Monster, acts[j]) < v
    {
      var c := Child(s, Monster, acts[i]);
      if c > v {
        v := c;
        best := acts[i];
        k := i;
      }
      i := i + 1;
    }
    if v == 1 {
      TopIsValue(s, k);
    } else {
      MaxIsValue(s, k);
    }
  }

  /** An action whose value is 1 attains the Monster's minimax value. */
  lemma TopIsValue(s: State, k: nat)
    requires SearchState(s) && !Stop(s, Monster)
    requires k < |Actions(s, Monster)| && Child(s, Monster, Actions(s, Monster)[k]) == 1
    ensures Value(s, Monster) == 1
  {
    ValueIsBest(s, Monster);
    assert Actions(s, Monster)[k] in Actions(s, Monster);
  }

  /** An action whose value is at least every other action's value attains
      the Monster's minimax value. */
  lemma MaxIsValue(s: State, k: nat)
    requires SearchState(s) && !Stop(s, Monster)
    requires k < |Actions(s, Monster)|
    requires forall j :: 0 <= j < |Actions(s, Monster)| ==>
      Child(s, Monster, Actions(s, Monster)[j]) <= Child(s, Monster, Actions(s, Monster)[k])
    ensures Value(s, Monster) == Child(s, Monster, Actions(s, Monster)[k])
  {
    var acts := Actions(s, Monster);
    var r := Value(s, Monster);
    ValueIsBest(s, Monster);
    assert acts[k] in acts;
    var a :| a in acts && Child(s, Monster, a) == r;
    var j :| 0 <= j < |acts| && acts[j] == a;
    assert r <= Child(s, Monster, acts[k]);
    assert Child(s, Monster, acts[k]) <= r;
  }

  /** The search sees an immediate catch: when the Monster can move onto the
      Player's cell (or already shares it, after the Player stepped onto the
      Monster) and the Player has not won, the Monster's value is 1. */
  lemma ImmediateCatch(s: State, a: Action)
    requires SearchState(s) && !Stop(s, Monster)
    requires a in Actions(s, Monster)
    requires (a.Move? && Neighbour(s.monster, a.dir) == s.player) || (a == Stay && s.monster == s.player)
    ensures Value(s, Monster) == 1
  {
    var t := Ply(s, Monster, a);
    assert t.monster == t.player;
    assert Stop(t, Player);
    assert Child(s, Monster, a) == 1;
    ValueIsBest(s, Monster);
  }
}

=== FILE: rules.dfy ===
/** Action generation and the transition function of the game. */
module Rules {
  import opened Grid
  import opened GameState

  /** What an agent may do, stated independently of the generator: move into
      an open neighbouring cell; build on one (Player only); stay (Monster
      only). */
  predicate Allowed(s: State, who: Agent, a: Action)
  {
    match a
    case Move(d) => Open(s, At(s, who), d)
    case Build(d) => who == Player && Open(s, At(s, who), d)
    case Stay => who == Monster
  }

  /** Sort key of an action in the generated list: directions in the order
      Up, Down, Left, Right, a move before the build in the same direction,
      and the Monster's stay last. */
  function Key(a: Action): nat
  {
    match a
    case Move(d) => 2 * Rank(d)
    case Build(d) => 2 * Rank(d) + 1
    case Stay => 8
  }

  /** Keys strictly increase along the list, so no action is listed twice and
      the list is the sorted enumeration of its members. */
  predicate Ordered(acts: seq<Action>)
  {
    forall i, j :: 0 <= i < j < |acts| ==> Key(acts[i]) < Key(acts[j])
  }

  /** The actions one direction contributes: the move (and for the Player the
      build right after it) when the coordinate test passes and the cell is
      empty, nothing otherwise. */
  function DirActions(s: State, who: Agent, d: Dir): (acts: seq<Action>)
    ensures forall a :: a in acts ==> 2 * Rank(d) <= Key(a) <= 2 * Rank(d) + 1
    ensures Ordered(acts)
    ensures InBounds(s.n, At(s, who)) ==>
      forall a :: a in acts <==> (a.Move? || a.Build?) && a.dir == d && Allowed(s, who, a)
  {
    var p := At(s, who);
    if HasRoom(s.n, p, d) && Neighbour(p, d) !in s.obstacles then
      if who == Player then [Move(d), Build(d)] else [Move(d)]
    else
      []
  }

  lemma OrderedAppend(xs: seq<Action>, ys: seq<Action>, k: int)
    requires Ordered(xs) && Ordered(ys)
    requires forall a :: a in xs ==> Key(a) < k
    requires forall a :: a in ys ==> k <= Key(a)
    ensures Ordered(xs + ys)
  {
    forall i, j | 0 <= i < j < |xs + ys|
      ensures Key((xs + ys)[i]) < Key((xs + ys)[j])
    {
      if j < |xs| {
        assert (xs + ys)[i] == xs[i] && (xs + ys)[j] == xs[j];
      } else if i >= |xs| {
        assert (xs + ys)[i] == ys[i - |xs|] && (xs + ys)[j] == ys[j - |xs|];
      } else {
        assert (xs + ys)[i] in xs && (xs + ys)[j] in ys;
      }
    }
  }

  /** The legal actions of `who`, in the fixed order Up, Down, Left, Right;
      the Player gets a move/build pair per open direction and the Monster a
      move per open direction followed by an always-present stay. The list is
      ordered by `Key`, so no action is listed twice. */
  function Actions(s: State, who: Agent): (acts: seq<Action>)
    ensures Ordered(acts)
    ensures who == Monster ==> |acts| > 0 && acts[|acts| - 1] == Stay
    ensures who == Player ==> Stay !in acts
  {
    var up := DirActions(s, who, Up);
    var down := DirActions(s, who, Down);
    var left := DirActions(s, who, Left);
    var right := DirActions(s, who, Right);
    var stay := if who == Monster then [Stay] else [];
    OrderedAppend(up, down, 2);
    OrderedAppend(up + down, left, 4);
    OrderedAppend(up + down + left, right, 6);
    OrderedAppend(up + down + left + right, stay, 8);
    up + down + left + right + stay
  }

  /** For an agent on the board, the generated list holds exactly the allowed
      actions: every open direction contributes its move (and, for the Player,
      its build), and nothing else is ever offered. */
  lemma {:induction false} ActionsAllowed(s: State, who: Agent)
    requires InBounds(s.n, At(s, who))
    ensures forall a :: a in Actions(s, who) <==> Allowed(s, who, a)
  {
    var up := DirActions(s, who, Up);
    var down := DirActions(s, who, Down);
    var left := DirActions(s, who, Left);
    var right := DirActions(s, who, Right);
    var stay := if who == Monster then [Stay] else [];
    assert Actions(s, who) == up + down + left + right + stay;
    forall a ensures a in Actions(s, who) <==> Allowed(s, who, a) {
      MemberOfConcat(up, down, left, right, stay, a);
      if a.Stay? {
        assert a !in up && a !in down && a !in left && a !in right;
      } else {
        assert a !in stay;
      }
    }
  }

  /** What the generator checks for every action it lists, whether or not the
      agent is on the board. */
  lemma ActionsSound(s: State, who: Agent, a: Action)
    requires a in Actions(s, who)
    ensures a.Move? || a.Build? ==>
      HasRoom(s.n, At(s, who), a.dir) && Neighbour(At(s, who), a.dir) !in s.obstacles
    ensures a.Build? ==> who == Player
    ensures a.Stay? ==> who == Monster
  {
    var up := DirActions(s, who, Up);
    var down := DirActions(s, who, Down);
    var left := DirActions(s, who, Left);
    var right := DirActions(s, who, Right);
    var stay := if who == Monster then [Stay] else [];
    MemberOfConcat(up, down, left, right, stay, a);
  }

  lemma MemberOfConcat(a1: seq<Action>, a2: seq<Action>, a3: seq<Action>, a4: seq<Action>, a5: seq<Action>, a: Action)
    ensures a in a1 + a2 + a3 + a4 + a5 <==> a in a1 || a in a2 || a in a3 || a in a4 || a in a5
  {
  }

  /** The effect of one action of `who`, before any legality check. A Player
      move steps into the neighbouring cell, a Player build marks that cell
      as an obstacle, and every Player action uses up one move of the budget.
      A Monster move steps the Monster; anything else leaves it in place. */
  function Apply(s: State, who: Agent, a: Action): (r: State)
    ensures r.n == s.n && r.gold == s.gold && r.exit == s.exit
    ensures r.hasGold == s.hasGold && r.maxMoves == s.maxMoves
    ensures who == Player ==> r.numMoves == s.numMoves + 1 && r.monster == s.monster
    ensures who == Monster ==> r == s.(monster := r.monster)
  {
    if who == Player then
      var moved :=
        if a.Move? then s.(player := Neighbour(s.player, a.dir))
        else if a.Build? then s.(obstacles := s.obstacles + {Neighbour(s.player, a.dir)})
        else s;
      moved.(numMoves := s.numMoves + 1)
    else if a.Move? then
      s.(monster := Neighbour(s.monster, a.dir))
    else
      s
  }

  /** One action of `who`, which must be one of `Actions(s, who)`. The moved
      agent lands on an empty cell of the board, a build adds exactly one new
      obstacle next to the Player, nothing else changes, and a well-formed
      state stays well formed. */
  function Step(s: State, who: Agent, a: Action): (r: State)
    requires a in Actions(s, who)
    ensures r.n == s.n && r.gold == s.gold && r.exit == s.exit
    ensures r.hasGold == s.hasGold && r.maxMoves == s.maxMoves
    ensures s.obstacles <= r.obstacles
    ensures who == Player ==> r.numMoves == s.numMoves + 1 && r.monster == s.monster
    ensures who == Player && a.Move? ==>
      && r.player == Neighbour(s.player, a.dir)
      && r.player !in s.obstacles
      && r.obstacles == s.obstacles
    ensures who == Player && a.Build? ==>
      && r.player == s.player
      && Neighbour(s.player, a.dir) !in s.obstacles
      && r.obstacles == s.obstacles + {Neighbour(s.player, a.dir)}
    ensures who == Monster ==> r == s.(monster := r.monster)
    ensures who == Monster && a.Move? ==>
      r.monster == Neighbour(s.monster, a.dir) && r.monster !in s.obstacles
    ensures who == Monster && a == Stay ==> r == s
    ensures Valid(s) ==> Valid(r)
  {
    ActionsSound(s, who, a);
    Apply(s, who, a)
  }

  /** Moving the Monster does not change what the Player may do. */
  lemma MonsterMoveKeepsPlayerActions(s: State, a: Action)
    ensures Actions(Apply(s, Monster, a), Player) == Actions(s, Player)
  {
    var t := Apply(s, Monster, a);
    assert At(t, Player) == At(s, Player);
    forall d: Dir ensures DirActions(t, Player, d) == DirActions(s, Player, d) {
    }
  }

  /** The driver's gold check after a Player move: the gold is collected when
      the Player stands on its cell, and once collected it stays collected. */
  function PickUpGold(s: State): (r: State)
    ensures r.hasGold <==> s.hasGold || s.player == s.gold
    ensures r == s.(hasGold := r.hasGold)
  {
    if !s.hasGold && s.player == s.gold then s.(hasGold := true) else s
  }

  /** A full Player ply as the driver performs it: the move, then the gold
      check. */
  function PlayerPly(s: State, a: Action): (r: State)
    requires a in Actions(s, Player)
    ensures r.hasGold <==> s.hasGold || r.player == s.gold
    ensures Valid(s) ==> Valid(r)
  {
    PickUpGold(Step(s, Player, a))
  }
}

=== FILE: scenario.dfy ===
/** A concrete game on the 4-by-4 board, played through the game loop,
    showing that the Monster can end up standing on an obstacle: the Player
    steps up, the Monster steps down next to it, the Player builds on the
    Monster's cell and the Monster stays. Nothing in the rules forbids
    building on the Monster's cell, and the Monster's own moves only avoid
    obstacles on the cell they enter.

    It also records where the game loop and the reconstructed search part
    ways: a Player that boxes itself in loses in the loop, while the search
    scores the same position as a draw.
 */
module Scenario {
  import opened Grid
  import opened GameState
  import opened Rules
  import opened Scoring
  import opened Driver
  import opened Minimax

  /** After the Player's first move up. */
  const S1: State := State(4, {}, Pos(2, 0), Pos(0, 0), Pos(1, 2), Pos(3, 0), false, 1, 9)

  /** After the Monster's reply down. */
  const S2: State := State(4, {}, Pos(2, 0), Pos(1, 0), Pos(1, 2), Pos(3, 0), false, 1, 9)

  /** After the Player's build on the Monster's cell. */
  const S3: State := State(4, {Pos(1, 0)}, Pos(2, 0), Pos(1, 0), Pos(1, 2), Pos(3, 0), false, 2, 9)

  /** `Actions` as the concatenation of what each direction contributes. */
  lemma ActionsByDirection(s: State, who: Agent)
    ensures Actions(s, who) ==
      DirActions(s, who, Up) + DirActions(s, who, Down) + DirActions(s, who, Left)
      + DirActions(s, who, Right) + (if who == Monster then [Stay] else [])
  {
  }

  lemma FirstMonsterActions()
    ensures Actions(S1, Monster) == [Move(Down), Move(Right), Stay]
  {
    var s := S1;
    var up := DirActions(s, Monster, Up);
    var down := DirActions(s, Monster, Down);
    var left := DirActions(s, Monster, Left);
    var right := DirActions(s, Monster, Right);
    assert up == [];
    assert down == [Move(Down)];
    assert left == [];
    assert right == [Move(Right)];
    ActionsByDirection(s, Monster);
    assert up + down + left + right + [Stay] == [Move(Down), Move(Right), Stay];
  }

  lemma SecondMonsterActions()
    ensures Actions(S3, Monster) == [Move(Up), Move(Down), Move(Right), Stay]
  {
    var s := S3;
    var up := DirActions(s, Monster, Up);
    var down := DirActions(s, Monster, Down);
    var left := DirActions(s, Monster, Left);
    var right := DirActions(s, Monster, Right);
    assert up == [Move(Up)];
    assert down == [Move(Down)];
    assert left == [];
    assert right == [Move(Right)];
    ActionsByDirection(s, Monster);
    assert up + down + left + right + [Stay] == [Move(Up), Move(Down), Move(Right), Stay];
  }

  /** A Player with an open neighbouring cell has a move. */
  lemma HasMove(s: State, d: Dir)
    requires InBounds(s.n, s.player) && Open(s, s.player, d)
    ensures !NoMoreMoves(s, Player)
  {
    BoxedIn(s);
  }

  lemma FirstPly()
    ensures Move(Up) in Actions(Init(4), Player)
    ensures PlayerPly(Init(4), Move(Up)) == S1
    ensures !NoMoreMoves(S1, Player)
  {
    ActionsAllowed(Init(4), Player);
    assert Allowed(Init(4), Player, Move(Up));
    assert Step(Init(4), Player, Move(Up)) == S1;
    HasMove(S1, Up);
  }

  lemma SecondPly()
    ensures Build(Up) in Actions(S2, Player)
    ensures PlayerPly(S2, Build(Up)) == S3
    ensures !NoMoreMoves(S3, Player)
  {
    ActionsAllowed(S2, Player);
    assert Allowed(S2, Player, Build(Up));
    assert Step(S2, Player, Build(Up)) == S3;
    HasMove(S3, Down);
  }

  /** The Player steps up and the Monster, drawing its first action, steps
      down. */
  lemma FirstRound()
    ensures Move(Up) in Actions(Init(4), Player)
    ensures Round(Init(4), Move(Up), 0) == Ongoing(S2)
  {
    FirstPly();
    FirstMonsterActions();
    assert MonsterPick(S1, 0) == Move(Down);
    assert Step(S1, Monster, Move(Down)) == S2;
  }

  /** The Player builds on the Monster's cell and the Monster, drawing its
      last action, stays. */
  lemma SecondRound()
    ensures Build(Up) in Actions(S2, Player)
    ensures Round(S2, Build(Up), 3) == Ongoing(S3)
  {
    SecondPly();
    SecondMonsterActions();
    assert MonsterPick(S3, 3) == Stay;
    assert Step(S3, Monster, Stay) == S3;
  }

  /** Two rounds of the game loop from the starting layout leave the Monster
      on an obstacle, with the game still going on. */
  lemma MonsterOnObstacle()
    ensures Move(Up) in Actions(Init(4), Player)
    ensures var o1 := Round(Init(4), Move(Up), 0);
      && o1.Ongoing? && Build(Up) in Actions(o1.state, Player)
      && var o2 := Round(o1.state, Build(Up), 3);
      && o2.Ongoing? && o2.state.monster in o2.state.obstacles
  {
    FirstRound();
    SecondRound();
  }

  /** A Player ply that leaves the Player without a move, not on the exit with
      the gold, with budget left and the Monster elsewhere, ends the round as
      a Player loss; the search, which scores positions by `get_utility`,
      values the same position 0. */
  lemma BoxedInLoopAndSearch(s: State, a: Action, draw: nat)
    requires a in Actions(s, Player)
    requires PlayerPly(s, a).numMoves < PlayerPly(s, a).maxMoves
    requires NoMoreMoves(PlayerPly(s, a), Player)
    requires !GameWon(PlayerPly(s, a), Player) && PlayerPly(s, a).monster != PlayerPly(s, a).player
    ensures Round(s, a, draw).PlayerLost?
    ensures Value(PlayerPly(s, a), Monster) == 0
  {
  }
}

=== FILE: scoring.dfy ===
/** Win tests, the terminal test and the value of a finished game. */
module Scoring {
  import opened Grid
  import opened GameState
  import opened Rules

  /** The winning condition of `who`: the Player wins by standing on the exit
      with the gold; the Monster wins when the Player's budget is used up or
      when it shares the Player's cell. */
  predicate GameWon(s: State, who: Agent)
  {
    if who == Player then
      s.hasGold && s.player == s.exit
    else
      s.numMoves == s.maxMoves || s.monster == s.player
  }

  /** How the win conditions arise in play. After a Player ply the Player has
      won exactly when it ends on the exit holding the gold, picked up before
      or on that very cell. The Player's last move of the budget hands the
      Monster its win. A Monster action never changes whether the Player has
      won, and a Monster stepping onto the Player's cell wins. */
  lemma WinConditions(s: State, who: Agent, a: Action)
    requires a in Actions(s, who)
    ensures who == Player ==>
      (GameWon(PlayerPly(s, a), Player) <==>
         PlayerPly(s, a).player == s.exit && (s.hasGold || s.exit == s.gold))
    ensures who == Player && s.numMoves + 1 == s.maxMoves ==> GameWon(PlayerPly(s, a), Monster)
    ensures who == Monster ==> (GameWon(Step(s, Monster, a), Player) <==> GameWon(s, Player))
    ensures who == Monster && a.Move? && Neighbour(s.monster, a.dir) == s.player ==>
      GameWon(Step(s, Monster, a), Monster)
  {
  }

  /** `who` has nothing to choose from. The Monster can always stay, so this
      never holds for the Monster (see `BoxedIn` for the Player). */
  predicate NoMoreMoves(s: State, who: Agent)
    ensures who == Monster ==> !NoMoreMoves(s, who)
  {
    |Actions(s, who)| == 0
  }

  /** A position is terminal for `who` when it has no move or has won. For
      the Monster that is just its win condition. */
  predicate IsTerminal(s: State, who: Agent)
    ensures who == Monster ==> (IsTerminal(s, who) <==> GameWon(s, Monster))
  {
    NoMoreMoves(s, who) || GameWon(s, who)
  }

  /** A Player on the board has no move exactly when each of the four
      neighbouring cells is off the board or blocked; so it is in a terminal
      position exactly when it has won or is boxed in like that. */
  lemma BoxedIn(s: State)
    requires InBounds(s.n, s.player)
    ensures NoMoreMoves(s, Player) <==> forall d: Dir :: !Open(s, s.player, d)
    ensures IsTerminal(s, Player) <==> GameWon(s, Player) || forall d: Dir :: !Open(s, s.player, d)
  {
    ActionsAllowed(s, Player);
    assert forall d: Dir :: Open(s, s.player, d) ==> Move(d) in Actions(s, Player);
  }

  /** Value of a position from the Monster's point of view: -1 when the
      Player has won, otherwise 1 when the Monster has won, otherwise 0. A
      Player win takes priority over a simultaneous Monster win. */
  function Utility(s: State): (u: int)
    ensures -1 <= u <= 1
    ensures u == -1 <==> GameWon(s, Player)
    ensures u == 1 <==> !GameWon(s, Player) && GameWon(s, Monster)
    ensures u == 0 <==> !GameWon(s, Player) && !GameWon(s, Monster)
  {
    if s.hasGold && s.player == s.exit then -1
    else if s.numMoves == s.maxMoves || s.monster == s.player then 1
    else 0
  }
}

=== FILE: tokens.dfy ===
/** The textual names of actions: the strings the game lists to the Player
    and compares the typed move against. */
module Tokens {
  import opened Grid
  import opened GameState
  import opened Rules

  datatype Option<T> = None | Some(value: T)

  function DirCode(d: Dir): string
  {
    match d
    case Up => "w"
    case Down => "s"
    case Left => "a"
    case Right => "d"
  }

  /** A move is its direction letter, a build appends "b", and the Monster's
      stay is the empty string. */
  function Code(a: Action): (t: string)
    ensures |t| <= 2
    ensures t == "" <==> a == Stay
  {
    match a
    case Move(d) => DirCode(d)
    case Build(d) => DirCode(d) + "b"
    case Stay => ""
  }

  function ParseDir(c: char): Option<Dir>
  {
    if c == 'w' then Some(Up)
    else if c == 's' then Some(Down)
    else if c == 'a' then Some(Left)
    else if c == 'd' then Some(Right)
    else None
  }

  /** Reads an action name back; any other string names no action. */
  function Parse(t: string): (r: Option<Action>)
    ensures r.Some? ==> Code(r.value) == t
  {
    if |t| == 0 then Some(Stay)
    else match ParseDir(t[0])
      case None => None
      case Some(d) =>
        if |t| == 1 then Some(Move(d))
        else if |t| == 2 && t[1] == 'b' then Some(Build(d))
        else None
  }

  /** Every action name reads back as the action it names. */
  lemma ParseCode(a: Action)
    ensures Parse(Code(a)) == Some(a)
  {
    match a
    case Move(d) =>
    case Build(d) =>
      assert Code(a)[0] == DirCode(d)[0];
    case Stay =>
  }

  /** Distinct actions have distinct names. */
  lemma CodeInjective(a: Action, b: Action)
    ensures Code(a) == Code(b) ==> a == b
  {
    if Code(a) == Code(b) {
      ParseCode(a);
      ParseCode(b);
    }
  }

  /** The list of names shown to `who`. */
  function Names(s: State, who: Agent): (ts: seq<string>)
    ensures |ts| == |Actions(s, who)|
    ensures forall i :: 0 <= i < |ts| ==> ts[i] == Code(Actions(s, who)[i])
  {
    var acts := Actions(s, who);
    seq(|acts|, i requires 0 <= i < |acts| => Code(acts[i]))
  }

  /** The driver accepts a typed move exactly when it is the name of a legal
      Player action, and that action is the one parsed from the input. */
  lemma AcceptedIffLegal(s: State, t: string)
    ensures t in Names(s, Player) <==> Parse(t).Some? && Parse(t).value in Actions(s, Player)
  {
    var acts := Actions(s, Player);
    var ts := Names(s, Player);
    if t in ts {
      var i :| 0 <= i < |ts| && ts[i] == t;
      ParseCode(acts[i]);
    }
    if Parse(t).Some? && Parse(t).value in acts {
      var i :| 0 <= i < |acts| && acts[i] == Parse(t).value;
      assert ts[i] == t;
    }
  }
}
